=== FILE: README.md ===
# IORef: a verified model of a reference-counted indirection box

The library is a single C file implementing an *IORef*: a small heap box
that holds one retained pointer to an external, separately
reference-counted resource, together with the two callbacks (`retain`,
`release`) that manage that resource's own count. The box itself has a
second, independent owner count (`ref` / `unref`); the `unref` that brings
it to zero or below destroys the box, and destroying it releases the held
pointer.

This Dafny project models the box as an immutable value and each C
function as a pure transition returning the new state and the trace of
callback invocations it made:

- `ioref.dfy` (module `IORefs`): the record (`IORef.Live(refcount, ptr,
  hasRetain, hasRelease)` or `Destroyed`), the six public operations
  (`Init`, `Destroy`, `Set`, `Get`, `Ref`, `Unref`) and the two guarded
  helpers through which `get` and `set` fire callbacks (`RetainHeld`,
  `ReleaseHeld`); `destroy` fires release itself, guarded on the release
  slot. A NULL pointer is `None` of `Option`; a NULL `ior`
  argument is `None` at the API boundary; callback slots are booleans
  saying whether they are non-NULL; handles are a type parameter `H`.
- `ownership.dfy` (module `Ownership`): sequences of `set` / `get` between
  `init` and `destroy`, and the accounting theorem behind the library's
  ownership comments: each unit handed in by `init` or by a
  pointer-changing `set` is released exactly once, and each `get` of a
  non-NULL pointer, with retain present, hands out exactly one retain. A `set` of the pointer already held is skipped
  entirely, so the unit its caller retained is never released (see
  "Left out").
- `lifetime.dfy` (module `Lifetime`): sequences of `ref` / `unref` and the
  theorem that the box dies exactly at the first `unref` whose running
  total drops to zero or below.
- `release_guard.dfy` (module `ReleaseGuard`): the release helper's guard, which
  tests the retain slot before calling the release slot (see Findings).

The release helper's guard is a parameter `Guard` of `SetWith`;
`AsWritten` (`OnRetain`, the shipped code) is what `Set` uses, and
`OnRelease` is the corrected test. When the shipped guard passes while the
release slot is NULL, the C code calls through a NULL function pointer;
the model records that as the distinct event `ReleaseThroughNull(h)` and
then carries on as if the call had returned (the new pointer is stored and
later operations proceed), which C does not promise.

Calling any operation on a destroyed box is undefined in C (the memory is
freed); every operation therefore requires `Usable(ior)`: NULL or live.

## Model

| member | source | states |
|---|---|---|
| IORefs.RetainHeld | lib.c:96-105 | fires at most one callback, exactly `Retain(ptr)`, and fires it iff the box is non-NULL, the held pointer is non-NULL and the retain slot is set |
| IORefs.InvokeRelease | lib.c:115 | the call through the release slot on `h`: an event on `h` that is never a retain, and a real `Release(h)` iff the release slot is set (a NULL slot gives `ReleaseThroughNull(h)`) |
| IORefs.ReleaseHeld | lib.c:108-117 | fires at most one callback, never a retain, on the held pointer, iff the box and the pointer are non-NULL and the guarded slot (retain, as written at line 113) is set; the callback is a real release iff the release slot is set |
| IORefs.Init | lib.c:20-31 | a live box with owner count 0, holding the given (pre-retained) pointer and callbacks; no callback fires |
| IORefs.Destroy | lib.c:33-48 | NULL is a no-op; otherwise the box becomes `Destroyed` and the only callback fired is one `Release(ptr)`, exactly when the pointer and the release slot are non-NULL |
| IORefs.SetWith | lib.c:50-62 | NULL is a no-op; re-setting the held pointer changes nothing and fires nothing; otherwise the new pointer is stored with count and callbacks unchanged, the old one goes through the release helper, and no retain ever fires |
| IORefs.Set | lib.c:52-62 | the shipped `set`: the only possible callback is a release-slot call on the old pointer, made iff the pointer changes, the old one is non-NULL and the retain slot is set |
| IORefs.Get | lib.c:64-73 | leaves the box unchanged, returns the held pointer (NULL for a NULL box) and fires exactly one `Retain` of the returned pointer iff it is non-NULL and retain is set |
| IORefs.Ref | lib.c:75-82 | NULL is a no-op; otherwise the owner count goes up by one and nothing else changes or fires |
| IORefs.Unref | lib.c:84-93 | NULL is a no-op; the box is destroyed iff the decremented count is at most zero, firing what `destroy` fires; otherwise only the count drops by one |
| Ownership.Perform | lib.c:52-73 | one `set` or `get` on a live box keeps it live with the same count and callbacks and leaves it holding the set pointer (or the old one for `get`) |
| Ownership.Run | lib.c:52-73 | a sequence of `set`/`get` keeps the box live with count and callbacks unchanged, holding what the sequence alone says it holds |
| Ownership.RunAccounting | lib.c:50-73 | while the box lives and release fires whenever it should: releases of `h` plus "still holds `h`" equal "held `h` at the start" plus installations of `h`; retains of `h` equal the `get`s made while `h` was held; no NULL release call |
| Ownership.SessionAccounting | lib.c:20-73 | `init`, any `set`/`get` sequence, `destroy`: releases of `h` equal its installations (by `init` or a pointer-changing `set`), retains of `h` equal the `get`s made while it was held |
| Ownership.OwnershipAccounting | lib.c:20-73 | the same for the shipped code with both callbacks present |
| Ownership.RepeatedGets | lib.c:64-73 | `n` `get`s leave the box unchanged and retain the held pointer exactly `n` times (none if it is NULL or retain is absent) |
| Ownership.InitThenDestroy | lib.c:22-48 | `init(P)` then `destroy` fires exactly one `Release(P)` and no retain |
| Ownership.SetIsIdempotent | lib.c:57 | a second `set` with the same pointer changes nothing and fires nothing |
| Ownership.ResetKeepsCallerUnit | lib.c:50-61 | `init(h)`, `set(h)`, `destroy` with both callbacks: the caller handed in two retained units of `h` (lines 21 and 51) but exactly one `Release(h)` fires, and the re-set counts as no installation |
| Ownership.SetReplaces | lib.c:57-61 | with both callbacks, replacing a non-NULL `P` by a different pointer fires exactly `Release(P)` and stores the new pointer unretained |
| Lifetime.Owners | lib.c:75-93 | a run of `ref`/`unref` applies at most as many calls as it is given, and stops early only because the box was destroyed |
| Lifetime.SurvivorNonNegative | lib.c:84-93 | from a non-negative count, a box that survives a run of `ref`/`unref` has a non-negative count, since the decrement to zero or below destroys it |
| Lifetime.OwnersLifetime | lib.c:75-93 | the box is destroyed iff some `unref` takes the running total to at most zero; it dies at the first such call, firing what `destroy` fires; if it survives, its count is the start plus refs minus unrefs and nothing fired |
| Lifetime.UnrefFreshEmpty | lib.c:22-93 | a fresh box holding NULL is destroyed by its first `unref` and no callback fires |
| Lifetime.TwoOwnersScenario | lib.c:75-93 | `init(R0)`, `ref`, `ref`, `unref` leaves count 1 with nothing released; a second `unref` destroys the box releasing `R0` once |
| ReleaseGuard.SetCorrected | lib.c:108-117 | `set` with the helper testing the release slot: a release of the old pointer fires iff the pointer changes, the old one is non-NULL and release is set |
| ReleaseGuard.GuardsAgree | lib.c:113 | with both callbacks present the shipped and the corrected `set` coincide |
| ReleaseGuard.AsWrittenLeaks | lib.c:113 | shipped code, release set but retain absent: `init(1)`, `set(2)`, `destroy` never releases 1, though the box owned one unit of it |
| ReleaseGuard.AsWrittenCallsNull | lib.c:113-115 | shipped code, retain set but release absent: `set(2)` on a box holding 1 calls the NULL release slot |
| ReleaseGuard.CorrectedAccounting | lib.c:50-62 | with the corrected guard the session accounting holds whenever release is present, whether or not retain is |
| ReleaseGuard.CorrectedNeverCallsNull | lib.c:108-117 | with the corrected guard no `set`/`get` sequence ever calls a NULL release slot |

## Left out

- `calloc` / `free` (lib.c:24, 47): allocation always succeeds; freeing is the transition to `Destroyed`, after which the field clearing at lib.c:44-46 is unobservable.
- Use after destroy and double destroy: undefined in C, so every operation requires its argument to be NULL or live rather than giving them a meaning.
- The `DEBUG_IOREF` tracing (lib.c:6-7 and each call site): output only, no effect on state.
- What the callbacks do to the external resource: they are opaque; the model records only which one was invoked and on which handle.
- Re-setting the held pointer: lib.c:51 asks the caller of `set` to pass a pointer it has already retained, with no exception for the pointer already held, but lib.c:57 then does nothing, so that unit is never released by the box. The model reproduces this (`ResetKeepsCallerUnit`), and the accounting theorems count only pointer-changing `set`s as installations; whether releasing the caller's extra unit is the caller's job is not decided by the code.
- Re-entrant callbacks: the callbacks are assumed not to call back into the same box. `set` calls release before storing the new pointer (lib.c:58-59), so a release that re-entered `set`, `get` or `unref` would see the old pointer; the accounting theorems hold only without such re-entry.
- IORefs.Ref: the C `int` count can overflow; the model uses mathematical integers.
- IORefs.Unref: same as `Ref`, no `int` wrap-around below `INT_MIN`.
- Thread safety: the counter is unsynchronised and the model is sequential.
- The identity of callback functions: two boxes with different non-NULL callbacks are indistinguishable apart from which slot fired.

## Findings

| source | as written | input that shows it | evidently intended | confidence | as-written member | corrected member |
|---|---|---|---|---|---|---|
| lib.c:113 | the release helper fires release only if the retain slot is non-NULL | `init(1, retain=NULL, release=f)`, `set(2)`, `destroy`: handle 1 is never released | test the release slot, as `destroy` does at lib.c:40 | high, not executed | ReleaseGuard.AsWrittenLeaks | ReleaseGuard.CorrectedAccounting |
| lib.c:113-115 | when retain is non-NULL and release is NULL the helper calls the NULL release slot | `init(1, retain=f, release=NULL)`, `set(2)` | skip the call when release is NULL | high, not executed | ReleaseGuard.AsWrittenCallsNull | ReleaseGuard.CorrectedNeverCallsNull |

The rest of the model keeps the shipped guard (`Set` uses `AsWritten`);
`GuardsAgree` shows the correction changes nothing when both callbacks are
present, which is the configuration the ownership theorem is stated for.

=== FILE: ioref.dfy ===
/**
 The IORef box: a wrapper with its own reference count that holds one
 retained unit of an external, separately reference-counted resource,
 plus the two callbacks (retain, release) that manage that resource.

 The C object is a record of four fields; here it is an immutable value,
 and every operation is a pure transition that returns the new state
 together with the trace of callback invocations it made. A C pointer to
 an IORef is an `Option<IORef<H>>` (`None` is NULL); after `destroy` the
 object is `Destroyed`, and using it again is undefined in C, so every
 operation requires a `Usable` argument.
 */
module IORefs {

  /** NULL-able values: `None` plays the part of a NULL pointer. */
  datatype Option<T> = None | Some(value: T)

  /** One invocation of a callback, with the handle it was given. */
  datatype Event<H> =
    | Retain(h: H)
    | Release(h: H)
      /** The code jumped through the release slot while it held NULL
          (undefined behaviour in C); recorded so the model can expose it. */
    | ReleaseThroughNull(h: H)

  /** The state of one IORef. `ptr` is the retained pointer (`None` is
      NULL); the two booleans say whether each callback slot is non-NULL. */
  datatype IORef<H> =
    | Live(refcount: int, ptr: Option<H>, hasRetain: bool, hasRelease: bool)
    | Destroyed

  /** The result of an operation: the object afterwards and the callbacks fired. */
  datatype Step<H> = Step(obj: Option<IORef<H>>, trace: seq<Event<H>>)

  /** The result of `get`: a step plus the pointer handed to the caller. */
  datatype Fetch<H> = Fetch(step: Step<H>, value: Option<H>)

  /** Which callback slot the release helper tests before firing release. */
  datatype Guard = OnRetain | OnRelease

  /** The release helper as the library ships it tests the retain slot. */
  const AsWritten: Guard := OnRetain

  /** An argument every operation may receive: NULL or a live object. */
  predicate Usable<H>(ior: Option<IORef<H>>)
  {
    ior.None? || ior.value.Live?
  }

  /** How many times `e` occurs in trace `t`. */
  function Count<H(==)>(t: seq<Event<H>>, e: Event<H>): nat
  {
    multiset(t)[e]
  }

  /** 1 when pointer `p` is handle `h`, else 0. */
  function Held<H(==)>(p: Option<H>, h: H): nat
  {
    if p == Some(h) then 1 else 0
  }

  /** True when the release helper's guard lets release fire on `s`. */
  predicate GuardOpen<H>(g: Guard, s: IORef<H>)
    requires s.Live?
  {
    match g
    case OnRetain => s.hasRetain
    case OnRelease => s.hasRelease
  }

  /** Invoking the release slot on `h`: a real release when the slot is set. */
  function InvokeRelease<H>(s: IORef<H>, h: H): (e: Event<H>)
    requires s.Live?
    ensures e.h == h && !e.Retain?
    ensures e.Release? <==> s.hasRelease
  {
    if s.hasRelease then Release(h) else ReleaseThroughNull(h)
  }

  /** `_minilib_ioref_retain_ptr`: fires retain on the held pointer when
      both the pointer and the retain slot are non-NULL. */
  function RetainHeld<H>(ior: Option<IORef<H>>): (t: seq<Event<H>>)
    requires Usable(ior)
    ensures |t| <= 1
    ensures t != [] <==> ior.Some? && ior.value.ptr.Some? && ior.value.hasRetain
    ensures t != [] ==> t == [Retain(ior.value.ptr.value)]
  {
    match ior
    case None => []
    case Some(s) =>
      if s.ptr.Some? && s.hasRetain then [Retain(s.ptr.value)] else []
  }

  /** `_minilib_ioref_release_ptr`, parameterised by the slot its guard
      tests: fires the release slot on the held pointer when the pointer is
      non-NULL and the guard passes. It never fires retain. */
  function ReleaseHeld<H>(ior: Option<IORef<H>>, g: Guard): (t: seq<Event<H>>)
    requires Usable(ior)
    ensures |t| <= 1
    ensures t != [] <==> ior.Some? && ior.value.ptr.Some? && GuardOpen(g, ior.value)
    ensures t != [] ==> t[0].h == ior.value.ptr.value && !t[0].Retain?
    ensures t != [] ==> (t[0].Release? <==> ior.value.hasRelease)
  {
    match ior
    case None => []
    case Some(s) =>
      if s.ptr.Some? && GuardOpen(g, s) then [InvokeRelease(s, s.ptr.value)] else []
  }

  /** `minilib_ioref_init`: a live IORef with no extra owners, holding the
      (already retained) pointer and the callbacks; nothing fires. */
  function Init<H>(p: Option<H>, hasRetain: bool, hasRelease: bool): (r: Step<H>)
    ensures r.obj.Some? && r.obj.value.Live?
    ensures r.obj.value.refcount == 0 && r.obj.value.ptr == p
    ensures r.obj.value.hasRetain == hasRetain && r.obj.value.hasRelease == hasRelease
    ensures r.trace == []
  {
    Step(Some(Live(0, p, hasRetain, hasRelease)), [])
  }

  /** `minilib_ioref_destroy`: releases the held pointer when both it and
      the release slot are non-NULL, then clears and frees the object. */
  function Destroy<H>(ior: Option<IORef<H>>): (r: Step<H>)
    requires Usable(ior)
    ensures ior.None? ==> r == Step(None, [])
    ensures ior.Some? ==> r.obj == Some(Destroyed)
    ensures forall e <- r.trace :: e.Release?
    ensures |r.trace| == (if ior.Some? && ior.value.ptr.Some? && ior.value.hasRelease then 1 else 0)
    ensures r.trace != [] ==> r.trace[0].h == ior.value.ptr.value
  {
    match ior
    case None => Step(None, [])
    case Some(s) =>
      var fired := if s.ptr.Some? && s.hasRelease then [Release(s.ptr.value)] else [];
      Step(Some(Destroyed), fired)
  }

  /** `minilib_ioref_set_retained_ptr` with the release helper's guard as a
      parameter. Re-setting the held pointer does nothing; a different
      pointer releases the old one (through the helper) and is stored
      without being retained. */
  function SetWith<H(==)>(ior: Option<IORef<H>>, p: Option<H>, g: Guard): (r: Step<H>)
    requires Usable(ior)
    ensures ior.None? ==> r == Step(None, [])
    ensures ior.Some? && ior.value.ptr == p ==> r == Step(ior, [])
    ensures ior.Some? ==> r.obj == Some(ior.value.(ptr := p))
    ensures ior.Some? && ior.value.ptr != p ==> r.trace == ReleaseHeld(ior, g)
    ensures |r.trace| <= 1
    ensures forall e <- r.trace :: !e.Retain?
  {
    match ior
    case None => Step(None, [])
    case Some(s) =>
      if s.ptr != p then Step(Some(s.(ptr := p)), ReleaseHeld(ior, g))
      else Step(ior, [])
  }

  /** `minilib_ioref_set_retained_ptr` as the library ships it. */
  function Set<H(==)>(ior: Option<IORef<H>>, p: Option<H>): (r: Step<H>)
    requires Usable(ior)
    ensures ior.None? ==> r == Step(None, [])
    ensures ior.Some? ==> r.obj == Some(ior.value.(ptr := p))
    ensures ior.Some? && ior.value.ptr == p ==> r.trace == []
    ensures ior.Some? && ior.value.ptr != p && ior.value.ptr.Some? && ior.value.hasRetain
            ==> r.trace == [InvokeRelease(ior.value, ior.value.ptr.value)]
    ensures !(ior.Some? && ior.value.ptr != p && ior.value.ptr.Some? && ior.value.hasRetain)
            ==> r.trace == []
  {
    SetWith(ior, p, AsWritten)
  }

  /** `minilib_ioref_get_retained_ptr`: hands the held pointer to the
      caller with one fresh retain, leaving the object unchanged. */
  function Get<H>(ior: Option<IORef<H>>): (r: Fetch<H>)
    requires Usable(ior)
    ensures r.step.obj == ior
    ensures ior.None? ==> r.value.None? && r.step.trace == []
    ensures ior.Some? ==> r.value == ior.value.ptr
    ensures r.step.trace == RetainHeld(ior)
    ensures |r.step.trace| == (if r.value.Some? && ior.value.hasRetain then 1 else 0)
    ensures forall e <- r.step.trace :: e == Retain(r.value.value)
  {
    var fired := RetainHeld(ior);
    var value := if ior.Some? then ior.value.ptr else None;
    Fetch(Step(ior, fired), value)
  }

  /** `minilib_ioref_ref`: one more owner of the box; nothing else changes. */
  function Ref<H>(ior: Option<IORef<H>>): (r: Step<H>)
    requires Usable(ior)
    ensures ior.None? ==> r == Step(None, [])
    ensures ior.Some? ==> r.obj == Some(ior.value.(refcount := ior.value.refcount + 1))
    ensures r.trace == []
  {
    match ior
    case None => Step(None, [])
    case Some(s) => Step(Some(s.(refcount := s.refcount + 1)), [])
  }

  /** `minilib_ioref_unref`: one owner fewer; the box is destroyed exactly
      when the decremented count is zero or below. */
  function Unref<H>(ior: Option<IORef<H>>): (r: Step<H>)
    requires Usable(ior)
    ensures ior.None? ==> r == Step(None, [])
    ensures ior.Some? ==> (r.obj == Some(Destroyed) <==> ior.value.refcount - 1 <= 0)
    ensures ior.Some? && ior.value.refcount - 1 > 0
            ==> r == Step(Some(ior.value.(refcount := ior.value.refcount - 1)), [])
    ensures ior.Some? && ior.value.refcount - 1 <= 0 ==> r.trace == Destroy(ior).trace
  {
    match ior
    case None => Step(None, [])
    case Some(s) =>
      var t := s.(refcount := s.refcount - 1);
      if t.refcount <= 0 then Destroy(Some(t)) else Step(Some(t), [])
  }
}

=== FILE: lifetime.dfy ===
/**
 The box's own owner count. `ref` adds an owner and `unref` drops one;
 the `unref` that takes the count to zero or below destroys the box, and
 any call after that would touch freed memory. This module runs a
 sequence of such calls until the box dies and relates the outcome to the
 running total of the calls alone.
 */
module Lifetime {
  import opened IORefs

  /** One call on the owner count. */
  datatype OwnerCall = RefCall | UnrefCall

  /** What one call does to the running total. */
  function Delta(o: OwnerCall): int
  {
    if o.RefCall? then 1 else -1
  }

  /** Net change of the running total over `ops`: `ref`s minus `unref`s. */
  function Net(ops: seq<OwnerCall>): int
    decreases |ops|
  {
    if ops == [] then 0 else Delta(ops[0]) + Net(ops[1..])
  }

  /** Starting from count `c`, call `i` is an `unref` after which the
      running total is zero or below. */
  predicate DiesAt(c: int, ops: seq<OwnerCall>, i: int)
  {
    0 <= i < |ops| && ops[i].UnrefCall? && c + Net(ops[..i + 1]) <= 0
  }

  /** The result of a run: the last step and how many calls were applied. */
  datatype Outcome<H> = Outcome(step: Step<H>, applied: nat)

  /** Applies `ops` to a live box until it is destroyed; calls after the
      destroying one are never made. */
  function Owners<H>(s: IORef<H>, ops: seq<OwnerCall>): (r: Outcome<H>)
    requires s.Live?
    ensures r.step.obj.Some?
    ensures r.applied <= |ops|
    ensures r.applied < |ops| ==> r.step.obj == Some(Destroyed)
    decreases |ops|
  {
    if ops == [] then Outcome(Step(Some(s), []), 0)
    else
      var first := if ops[0].RefCall? then Ref(Some(s)) else Unref(Some(s));
      if first.obj == Some(Destroyed) then Outcome(first, 1)
      else
        var rest := Owners(first.obj.value, ops[1..]);
        Outcome(Step(rest.step.obj, first.trace + rest.step.trace), rest.applied + 1)
  }

  /** Moving the start of a run past its first call. */
  lemma DiesAtShift(c: int, ops: seq<OwnerCall>, j: int)
    requires ops != [] && 0 <= j
    ensures DiesAt(c, ops, j + 1) <==> DiesAt(c + Delta(ops[0]), ops[1..], j)
  {
    if j + 1 < |ops| {
      var pre := ops[..j + 2];
      assert pre[0] == ops[0];
      assert pre[1..] == ops[1..][..j + 1];
      assert Net(pre) == Delta(ops[0]) + Net(ops[1..][..j + 1]);
    }
  }

  /** The first call of a run kills the box exactly when it is an `unref`
      from a count of one or less. */
  lemma DiesAtFirst(c: int, ops: seq<OwnerCall>)
    requires ops != []
    ensures DiesAt(c, ops, 0) <==> ops[0].UnrefCall? && c - 1 <= 0
  {
    assert ops[..1][1..] == [];
    assert Net(ops[..1]) == Delta(ops[0]);
  }

  /** Starting from a live box with count `c`: the box is destroyed exactly
      when some `unref` takes the running total to zero or below; it dies
      at the first such call, and dying fires only what `destroy` fires.
      If it survives, every call was applied, its count is `c` plus the net
      number of `ref`s, and nothing fired. */
  lemma {:induction false} OwnersLifetime<H>(s: IORef<H>, ops: seq<OwnerCall>)
    requires s.Live?
    ensures Owners(s, ops).step.obj == Some(Destroyed)
            <==> exists i :: DiesAt(s.refcount, ops, i)
    ensures Owners(s, ops).step.obj == Some(Destroyed) ==>
              && Owners(s, ops).applied >= 1
              && DiesAt(s.refcount, ops, Owners(s, ops).applied - 1)
              && (forall j :: 0 <= j < Owners(s, ops).applied - 1 ==> !DiesAt(s.refcount, ops, j))
              && Owners(s, ops).step.trace == Destroy(Some(s)).trace
    ensures Owners(s, ops).step.obj != Some(Destroyed) ==>
              && Owners(s, ops).applied == |ops|
              && Owners(s, ops).step == Step(Some(s.(refcount := s.refcount + Net(ops))), [])
    decreases |ops|
  {
    var c := s.refcount;
    var r := Owners(s, ops);
    if ops == [] {
      assert forall i :: !DiesAt(c, ops, i);
    } else {
      DiesAtFirst(c, ops);
      var first := if ops[0].RefCall? then Ref(Some(s)) else Unref(Some(s));
      if first.obj == Some(Destroyed) {
        assert DiesAt(c, ops, 0);
        assert first.trace == Destroy(Some(s)).trace;
      } else {
        var s' := first.obj.value;
        assert s' == s.(refcount := c + Delta(ops[0]));
        OwnersLifetime(s', ops[1..]);
        var rest := Owners(s', ops[1..]);
        assert r == Outcome(Step(rest.step.obj, first.trace + rest.step.trace), rest.applied + 1);
        assert !DiesAt(c, ops, 0);
        forall j | 0 <= j
          ensures DiesAt(c, ops, j + 1) <==> DiesAt(s'.refcount, ops[1..], j)
        {
          DiesAtShift(c, ops, j);
        }
        if exists i :: DiesAt(c, ops, i) {
          var i :| DiesAt(c, ops, i);
          assert DiesAt(s'.refcount, ops[1..], i - 1);
        }
        if r.step.obj == Some(Destroyed) {
          forall j | 0 <= j < r.applied - 1
            ensures !DiesAt(c, ops, j)
          {
            if j > 0 {
              assert !DiesAt(s'.refcount, ops[1..], j - 1);
            }
          }
          assert Destroy(Some(s')).trace == Destroy(Some(s)).trace;
        } else {
          assert Net(ops) == Delta(ops[0]) + Net(ops[1..]);
        }
      }
    }
  }

  /** The owner count of a surviving box never goes negative: a run from a
      non-negative count that leaves the box alive leaves a non-negative count. */
  lemma {:induction false} SurvivorNonNegative<H>(s: IORef<H>, ops: seq<OwnerCall>)
    requires s.Live? && s.refcount >= 0
    ensures Owners(s, ops).step.obj != Some(Destroyed) ==> Owners(s, ops).step.obj.value.refcount >= 0
    decreases |ops|
  {
    if ops != [] {
      var first := if ops[0].RefCall? then Ref(Some(s)) else Unref(Some(s));
      if first.obj != Some(Destroyed) {
        SurvivorNonNegative(first.obj.value, ops[1..]);
      }
    }
  }

  /** A fresh box holding nothing dies at the first `unref`, and neither
      callback fires. */
  lemma UnrefFreshEmpty(hasRetain: bool, hasRelease: bool)
    ensures Unref(Init<int>(None, hasRetain, hasRelease).obj) == Step(Some(Destroyed), [])
  {
  }

  /** `init(R0)`, `ref`, `ref`, `unref`, `unref`: the box survives the
      first `unref` with nothing released, and the second destroys it,
      releasing `R0` exactly once. */
  lemma TwoOwnersScenario(r0: int)
    ensures Owners(Init(Some(r0), true, true).obj.value, [RefCall, RefCall, UnrefCall]).step
            == Step(Some(Live(1, Some(r0), true, true)), [])
    ensures Owners(Init(Some(r0), true, true).obj.value, [RefCall, RefCall, UnrefCall, UnrefCall])
            == Outcome(Step(Some(Destroyed), [Release(r0)]), 4)
  {
  }
}

=== FILE: ownership.dfy ===
/**
 Ownership accounting for the retained pointer.

 Between `init` and `destroy` an IORef is driven by `set` and `get`.
 The library's ownership comments promise that the box owns exactly one
 retained unit of whatever it holds: the unit handed in by `init` or by a
 `set` that changed the pointer is released once (when replaced or when
 the box is destroyed), and every `get` of a non-NULL pointer, with
 retain present, hands out one fresh retain. This
 module states that promise over arbitrary sequences of accesses, against
 reference counts computed from the sequence alone.
 */
module Ownership {
  import opened IORefs

  /** One access made while the box is alive. */
  datatype Access<H> = SetTo(p: Option<H>) | GetHeld

  /** The pointer held after `acc`, starting from `cur`. */
  function Holds<H>(cur: Option<H>, acc: seq<Access<H>>): Option<H>
    decreases |acc|
  {
    if acc == [] then cur
    else
      var next := if acc[0].SetTo? then acc[0].p else cur;
      Holds(next, acc[1..])
  }

  /** How many `set`s in `acc` install `h`, that is change the held
      pointer (starting from `cur`) to `h`. */
  function Installs<H(==)>(cur: Option<H>, acc: seq<Access<H>>, h: H): nat
    decreases |acc|
  {
    if acc == [] then 0
    else if acc[0].SetTo? then
      (if acc[0].p != cur then Held(acc[0].p, h) else 0) + Installs(acc[0].p, acc[1..], h)
    else Installs(cur, acc[1..], h)
  }

  /** How many `get`s in `acc` happen while `h` is held (starting from `cur`). */
  function GetsWhileHeld<H(==)>(cur: Option<H>, acc: seq<Access<H>>, h: H): nat
    decreases |acc|
  {
    if acc == [] then 0
    else if acc[0].SetTo? then GetsWhileHeld(acc[0].p, acc[1..], h)
    else Held(cur, h) + GetsWhileHeld(cur, acc[1..], h)
  }

  /** `n` consecutive `get`s. */
  function Gets<H>(n: nat): (acc: seq<Access<H>>)
    ensures |acc| == n
    ensures forall a <- acc :: a.GetHeld?
  {
    if n == 0 then [] else [GetHeld] + Gets(n - 1)
  }

  /** Performs one access on a live box with the given release guard. */
  function Perform<H(==)>(s: IORef<H>, a: Access<H>, g: Guard): (r: Step<H>)
    requires s.Live?
    ensures r.obj.Some? && r.obj.value.Live?
    ensures r.obj.value.refcount == s.refcount
    ensures r.obj.value.hasRetain == s.hasRetain && r.obj.value.hasRelease == s.hasRelease
    ensures r.obj.value.ptr == (if a.SetTo? then a.p else s.ptr)
  {
    match a
    case SetTo(p) => SetWith(Some(s), p, g)
    case GetHeld => Get(Some(s)).step
  }

  /** Performs `acc` in order on a live box, concatenating the traces. The
      box stays alive, keeps its count and callbacks, and ends up holding
      what the accesses alone say it holds. */
  function Run<H(==)>(s: IORef<H>, acc: seq<Access<H>>, g: Guard): (r: Step<H>)
    requires s.Live?
    ensures r.obj.Some? && r.obj.value.Live?
    ensures r.obj.value.refcount == s.refcount
    ensures r.obj.value.hasRetain == s.hasRetain && r.obj.value.hasRelease == s.hasRelease
    ensures r.obj.value.ptr == Holds(s.ptr, acc)
    decreases |acc|
  {
    if acc == [] then Step(Some(s), [])
    else
      var first := Perform(s, acc[0], g);
      var rest := Run(first.obj.value, acc[1..], g);
      Step(rest.obj, first.trace + rest.trace)
  }

  /** A whole session: `init` with `p0`, the accesses, then `destroy`. */
  function Session<H(==)>(p0: Option<H>, hasRetain: bool, hasRelease: bool,
                          acc: seq<Access<H>>, g: Guard): (r: Step<H>)
    ensures r.obj == Some(Destroyed)
  {
    var s := Init(p0, hasRetain, hasRelease).obj.value;
    var run := Run(s, acc, g);
    var d := Destroy(run.obj);
    Step(d.obj, run.trace + d.trace)
  }

  /** The callbacks under which release fires exactly when the box lets go
      of a non-NULL pointer: release must be present, and so must the slot
      the release helper's guard tests. */
  predicate Sound<H>(g: Guard, s: IORef<H>)
    requires s.Live?
  {
    s.hasRelease && GuardOpen(g, s)
  }

  /** While the box is alive, every installed unit of `h` is either still
      held or has been released once, and every `get` while `h` was held
      retained it once (when retain is present). */
  lemma {:induction false} RunAccounting<H>(s: IORef<H>, acc: seq<Access<H>>, g: Guard, h: H)
    requires s.Live? && Sound(g, s)
    ensures Count(Run(s, acc, g).trace, Release(h)) + Held(Holds(s.ptr, acc), h)
            == Held(s.ptr, h) + Installs(s.ptr, acc, h)
    ensures Count(Run(s, acc, g).trace, Retain(h))
            == (if s.hasRetain then GetsWhileHeld(s.ptr, acc, h) else 0)
    ensures Count(Run(s, acc, g).trace, ReleaseThroughNull(h)) == 0
    decreases |acc|
  {
    if acc != [] {
      var first := Perform(s, acc[0], g);
      var s' := first.obj.value;
      RunAccounting(s', acc[1..], g, h);
      assert Run(s, acc, g).trace == first.trace + Run(s', acc[1..], g).trace;
      match acc[0]
      case SetTo(p) =>
        if s.ptr != p {
          assert first.trace == ReleaseHeld(Some(s), g);
          if s.ptr.Some? {
            assert first.trace == [Release(s.ptr.value)];
          } else {
            assert first.trace == [];
          }
        }
      case GetHeld =>
        assert first.trace == RetainHeld(Some(s));
        if s.ptr.Some? && s.hasRetain {
          assert first.trace == [Retain(s.ptr.value)];
        } else {
          assert first.trace == [];
        }
    }
  }

  /** Ownership accounting over a whole session: with sound callbacks,
      `h` is released exactly as many times as it was installed (by `init`
      or by a pointer-changing `set`), and retained once per `get` made
      while it was held. */
  lemma {:induction false} SessionAccounting<H>(p0: Option<H>, hasRetain: bool, hasRelease: bool,
                                 acc: seq<Access<H>>, g: Guard, h: H)
    requires hasRelease && (g == OnRetain ==> hasRetain)
    ensures Count(Session(p0, hasRetain, hasRelease, acc, g).trace, Release(h))
            == Held(p0, h) + Installs(p0, acc, h)
    ensures Count(Session(p0, hasRetain, hasRelease, acc, g).trace, Retain(h))
            == (if hasRetain then GetsWhileHeld(p0, acc, h) else 0)
    ensures Count(Session(p0, hasRetain, hasRelease, acc, g).trace, ReleaseThroughNull(h)) == 0
  {
    var s := Init(p0, hasRetain, hasRelease).obj.value;
    RunAccounting(s, acc, g, h);
    var run := Run(s, acc, g);
    var d := Destroy(run.obj);
    var last := run.obj.value.ptr;
    if last.Some? {
      assert d.trace == [Release(last.value)];
    } else {
      assert d.trace == [];
    }
  }

  /** The library's own configuration: both callbacks present and the
      release helper as written. Every unit of `h` handed in by `init` or by
      a pointer-changing `set` is released exactly once, and every `get`
      while it holds `h` hands out exactly one retain. */
  lemma OwnershipAccounting<H>(p0: Option<H>, acc: seq<Access<H>>, h: H)
    ensures Count(Session(p0, true, true, acc, AsWritten).trace, Release(h))
            == Held(p0, h) + Installs(p0, acc, h)
    ensures Count(Session(p0, true, true, acc, AsWritten).trace, Retain(h))
            == GetsWhileHeld(p0, acc, h)
    ensures Count(Session(p0, true, true, acc, AsWritten).trace, ReleaseThroughNull(h)) == 0
  {
    SessionAccounting(p0, true, true, acc, AsWritten, h);
  }

  /** `n` consecutive `get`s leave the box as it was and retain the held
      pointer exactly `n` times (none when it is NULL or retain is absent). */
  lemma {:induction false} RepeatedGets<H>(s: IORef<H>, n: nat, g: Guard, h: H)
    requires s.Live?
    ensures Run(s, Gets(n), g).obj == Some(s)
    ensures Count(Run(s, Gets(n), g).trace, Retain(h))
            == (if s.ptr == Some(h) && s.hasRetain then n else 0)
    ensures |Run(s, Gets(n), g).trace| == (if s.ptr.Some? && s.hasRetain then n else 0)
    decreases n
  {
    if n > 0 {
      var acc := Gets<H>(n);
      assert acc[0] == GetHeld && acc[1..] == Gets(n - 1);
      RepeatedGets(s, n - 1, g, h);
      var first := Perform(s, GetHeld, g);
      var rest := Run(s, Gets(n - 1), g);
      assert first == Get(Some(s)).step;
      assert Run(s, acc, g) == Step(rest.obj, first.trace + rest.trace);
    }
  }

  /** `init` with a non-NULL `P` followed at once by `destroy` releases `P`
      exactly once and retains nothing. */
  lemma InitThenDestroy<H>(P: H)
    ensures Session(Some(P), true, true, [], AsWritten).trace == [Release(P)]
  {
  }

  /** Setting the same pointer twice: the second `set` is a no-op. */
  lemma SetIsIdempotent<H>(ior: Option<IORef<H>>, p: Option<H>)
    requires Usable(ior)
    ensures Usable(Set(ior, p).obj)
    ensures Set(Set(ior, p).obj, p) == Step(Set(ior, p).obj, [])
  {
  }

  /** Re-setting the held pointer: the caller of `set` passes a unit it has
      retained, but the box skips the call, so a session that received two
      units of `h` releases only one. */
  lemma ResetKeepsCallerUnit<H>(h: H)
    ensures Installs(Some(h), [SetTo(Some(h))], h) == 0
    ensures Session(Some(h), true, true, [SetTo(Some(h))], AsWritten).trace == [Release(h)]
  {
    var s := Init(Some(h), true, true).obj.value;
    var acc := [SetTo(Some(h))];
    assert acc[1..] == [];
    assert Perform(s, acc[0], AsWritten) == Step(Some(s), []);
    assert Run(s, acc, AsWritten) == Step(Some(s), []);
  }

  /** With both callbacks present, replacing a non-NULL `P` by a different
      `Q` releases `P` exactly once and never retains `Q`. */
  lemma SetReplaces<H>(s: IORef<H>, P: H, Q: Option<H>)
    requires s.Live? && s.hasRetain && s.hasRelease && s.ptr == Some(P) && Q != Some(P)
    ensures Set(Some(s), Q).trace == [Release(P)]
    ensures Set(Some(s), Q).obj == Some(s.(ptr := Q))
  {
  }
}

=== FILE: release_guard.dfy ===
/**
 The release helper (`_minilib_ioref_release_ptr`) tests the RETAIN slot
 before calling the RELEASE slot, whereas `destroy` tests the release slot.
 With both callbacks present the two tests agree; with exactly one present
 the helper either skips a release it owes (the old pointer leaks) or jumps
 through a NULL release slot. This module exhibits both on concrete
 sessions and proves that testing the release slot restores the ownership
 accounting whenever the release callback is present, with or without
 retain.
 */
module ReleaseGuard {
  import opened IORefs
  import opened Ownership

  /** `set` with the release helper testing the release slot. */
  function SetCorrected<H(==)>(ior: Option<IORef<H>>, p: Option<H>): (r: Step<H>)
    requires Usable(ior)
    ensures ior.None? ==> r == Step(None, [])
    ensures ior.Some? ==> r.obj == Some(ior.value.(ptr := p))
    ensures ior.Some? && ior.value.ptr != p && ior.value.ptr.Some? && ior.value.hasRelease
            ==> r.trace == [Release(ior.value.ptr.value)]
    ensures !(ior.Some? && ior.value.ptr != p && ior.value.ptr.Some? && ior.value.hasRelease)
            ==> r.trace == []
  {
    SetWith(ior, p, OnRelease)
  }

  /** With both callbacks present the shipped `set` and the corrected one
      coincide, so the library's intended configuration is unaffected. */
  lemma GuardsAgree<H>(ior: Option<IORef<H>>, p: Option<H>)
    requires Usable(ior) && (ior.Some? ==> ior.value.hasRetain && ior.value.hasRelease)
    ensures Set(ior, p) == SetCorrected(ior, p)
  {
  }

  /** As written, with release present but retain absent: `init(1)`,
      `set(2)`, `destroy` never releases handle 1, although the box took
      over one retained unit of it. */
  lemma AsWrittenLeaks()
    ensures Held(Some(1), 1) + Installs(Some(1), [SetTo(Some(2))], 1) == 1
    ensures Count(Session(Some(1), false, true, [SetTo(Some(2))], AsWritten).trace, Release(1)) == 0
  {
  }

  /** As written, with retain present but release absent: `set(2)` on a box
      holding 1 calls the NULL release slot. */
  lemma AsWrittenCallsNull()
    ensures Session(Some(1), true, false, [SetTo(Some(2))], AsWritten).trace == [ReleaseThroughNull(1)]
  {
  }

  /** With the corrected guard, release alone suffices: every installed
      unit of `h` is released exactly once, whether or not retain is present. */
  lemma {:induction false} CorrectedAccounting<H>(p0: Option<H>, hasRetain: bool, acc: seq<Access<H>>, h: H)
    ensures Count(Session(p0, hasRetain, true, acc, OnRelease).trace, Release(h))
            == Held(p0, h) + Installs(p0, acc, h)
    ensures Count(Session(p0, hasRetain, true, acc, OnRelease).trace, Retain(h))
            == (if hasRetain then GetsWhileHeld(p0, acc, h) else 0)
  {
    SessionAccounting(p0, hasRetain, true, acc, OnRelease, h);
  }

  /** With the corrected guard no run ever calls a NULL release slot,
      whichever callbacks are present. */
  lemma {:induction false} CorrectedNeverCallsNull<H>(s: IORef<H>, acc: seq<Access<H>>, h: H)
    requires s.Live?
    ensures Count(Run(s, acc, OnRelease).trace, ReleaseThroughNull(h)) == 0
    decreases |acc|
  {
    if acc != [] {
      var first := Perform(s, acc[0], OnRelease);
      CorrectedNeverCallsNull(first.obj.value, acc[1..], h);
      assert Run(s, acc, OnRelease).trace == first.trace + Run(first.obj.value, acc[1..], OnRelease).trace;
      if acc[0].SetTo? && s.ptr != acc[0].p && s.ptr.Some? && s.hasRelease {
        assert first.trace == [Release(s.ptr.value)];
      } else if acc[0].GetHeld? && s.ptr.Some? && s.hasRetain {
        assert first.trace == [Retain(s.ptr.value)];
      } else {
        assert first.trace == [];
      }
    }
  }
}
